=== FILE: README.md ===
# PyMuse headband session, modelled in Dafny

PyMuse listens to a Muse EEG headband's OSC stream. Its `Headband` class keeps
the four horseshoe link-quality codes, a one-shot "already notified" flag, five
absolute-band readings (theta, delta, alpha, beta, gamma) and the latest raw
EEG burst. Every data handler first asks `check_connection` whether the link
is usable. If the link is usable, the handler replaces its stored reading. If
not, it leaves the reading alone. The gamma handler then calls `run`, which
prints the all-or-nothing `get_brainwaves` snapshot while the link is usable.

This project models that message-handling core as pure functions over an
immutable state record:

- `wrappers.dfy` (`Wrappers`): `Option` and `Result`.
- `link_monitor.dfy` (`LinkMonitor`): quality codes, tagged as
  `IntCode(n)` or `FloatCode(x)` because the gate inspects the runtime type of
  the first code; `check_connection`; the link half of `connection_handler`.
- `bands.dfy` (`Bands`): the five band lists and `get_brainwaves`.
- `session.dfy` (`Session`): the `Headband` state, one transition per handler,
  `run`, `get_raw_brainwaves`, the address table as a `Message` enumeration,
  and `Replay` over a message sequence.
- `debounce.dfy` (`Debounce`): the notification-debounce property on the
  event trace. It is stated twice, as an automaton and with indices, and the
  two statements are proved equivalent.
- `scenarios.dfy` (`Scenarios`): small concrete runs.

Each transition returns the new state and a trace of events:

- `PoorConnection(codes)` stands for the log line, screen clear and message
  printed in `check_connection`.
- `Printed(snapshot)` is what `run` prints.
- `Verdict(usable)` records each gate evaluation. The source prints nothing
  for it; the model records it so that debouncing can be stated on the trace.

Where the code does something other than its comments or names suggest, the model follows the code:

- `round_values` only rebinds its loop variable, so no rounding happens at
  ingestion. Stored lists are the arguments exactly as received (0.123456
  stays 0.123456).
- The "never updated" test looks only at whether the first stored code is an
  `int`. There is no separate flag. A real report whose first code is an
  integer therefore passes the gate, even `[4, 4, 4, 4]`
  (`Scenarios.IntTypedReportPassesGate`). That branch also leaves the
  notification flag as it was. So after such a report, a later degraded
  episode may produce no notification at all.
- The gamma handler calls `run` whether or not its own reading was accepted.
- A message with the wrong number of values raises `TypeError` before the
  handler body runs, through Python's call convention. The model returns
  `Failure(ArityMismatch(4, n))` from `Dispatch` and leaves the state
  unchanged.

## Model

| member | source | states |
|---|---|---|
| Session.Init | PyMuse.py:19-30 | A new session has int-typed sentinel codes, so its gate passes, with the flag clear. All five band lists and the raw burst are empty, so the snapshot is empty. |
| LinkMonitor.CheckConnection | PyMuse.py:94-113 | If the first code is int-typed: usable, link unchanged, no notice. Otherwise usable iff all four codes are below 3. A usable verdict clears the flag. A degraded verdict sets the flag and notifies, with the current codes, exactly when the flag was clear. The codes never change. |
| LinkMonitor.Update | PyMuse.py:91-92 | The stored codes become `[TP9, Fp1, Fp2, TP10]` in that order; the flag is kept. |
| LinkMonitor.DegradedChecksNotifyAtMostOnce | PyMuse.py:105-113 | With degraded, non-sentinel codes, any number of checks notify at most once, exactly once iff the flag started clear, and leave the flag set. |
| Bands.GetBrainwaves | PyMuse.py:148-162 | The result is empty iff some band list is empty. Otherwise it has exactly the five band keys, each mapped to that band's list. |
| Session.ConnectionHandler | PyMuse.py:91-92 | The codes become the four arguments in order. The flag, the bands and the raw burst are untouched, and nothing is emitted. |
| Session.Run | PyMuse.py:76-79 | Bands and raw are untouched. The link is as one check leaves it. The last event is `Printed` iff the gate passes, and it carries `get_brainwaves` of the current bands. |
| Session.BandHandler | PyMuse.py:86-146 | If the gate passes, the band's list becomes the four arguments unchanged. If not, all readings stay as they were. Other bands, raw and codes never change. Gamma runs a second check through `run`, and its last event is the printed snapshot iff that second check passes. |
| Session.RawHandler | PyMuse.py:121-123 | If the gate passes, the raw burst becomes `args[1:]`, that is, the OSC values after the dispatcher's fixed argument, element for element. If not, it is unchanged. Bands are never touched, and no snapshot is printed (no `Printed` event); the gate may still emit its degraded-connection notice. |
| Session.GetRawBrainwaves | PyMuse.py:164-166 | The output has the raw burst's length, and each element is `round` of the corresponding raw value. |
| Session.Dispatch | PyMuse.py:181-208 | Horseshoe and band messages with other than four values are refused with `ArityMismatch(4, n)`. Accepted horseshoe messages set the codes. Accepted horseshoe messages keep the flag. Accepted band messages store their values when the gate passes, change no reading when it fails, and never touch the other four bands. Every eeg or band message runs the gate once (the link becomes what `check_connection` leaves, codes unchanged). A gamma message runs it twice and ends with the printed snapshot iff the gate passed; a horseshoe message emits nothing. Eeg messages are never refused: they leave the bands alone, and the raw burst becomes their values when the gate passes and stays as it was otherwise. |
| Session.ApplyKeepsShape | PyMuse.py:125-143 | One message never empties a non-empty band, keeps a full set full, and stores only four-value lists. |
| Session.ReplayKeepsShape | PyMuse.py:125-143 | Over any message sequence, a full set of readings stays full, and well-formed readings stay well-formed. |
| Session.SnapshotStaysFull | PyMuse.py:148-162 | Once `get_brainwaves` is non-empty, it stays non-empty with all five keys after any further messages. |
| Session.ReplayStatusIsLastReported | PyMuse.py:91-92 | After any message sequence, the stored codes are those of the last well-formed horseshoe message, or the initial ones if there was none. |
| Session.ReplayVerdict | PyMuse.py:94-104 | After any message sequence, the gate passes while the last reported first code is int-typed. Otherwise it passes iff the last reported codes are all below 3. |
| Debounce.GateTracks | PyMuse.py:94-113 | One gate evaluation emits a debounced trace, and the flag records any notification it leaves open. |
| Debounce.ApplyTracks | PyMuse.py:141-146 | The same holds for every message, including the gamma path with two back-to-back checks. |
| Debounce.ReplayTracks | PyMuse.py:94-146 | The trace of any message sequence is debounced relative to the starting flag. |
| Debounce.DebouncedSeparates | PyMuse.py:105-113 | A debounced trace has a usable verdict strictly between any two notifications. |
| Debounce.SeparatedDebounces | PyMuse.py:105-113 | Conversely, a trace with a usable verdict between any two notifications is debounced. |
| Debounce.FreshSessionSeparatesNotices | PyMuse.py:94-113 | From a new `Headband`, any two notifications are separated by a usable verdict. |
| Debounce.NoResetNotifiesAtMostOnce | PyMuse.py:105-113 | A debounced stretch with no usable verdict holds at most one notification, and none if one was already open. |
| Debounce.GammaNotifiesAtMostOnce | PyMuse.py:141-146 | The gamma handler, with its two back-to-back gate checks, produces at most one notification. |
| Debounce.GammaNotifiesExactly | PyMuse.py:141-146 | Gamma's notices are exactly those of its first gate check; the second check, in `run`, runs on the link the first one left and never notifies. |
| Debounce.ApplyNotifiesExactly | PyMuse.py:105-146 | An eeg message or a well-formed band message, gamma included, emits exactly one notification when its first gate check notifies (degraded codes, flag clear), and none otherwise. Horseshoe and refused messages emit none. |
| Debounce.ApplyNotifiesAtMostOnce | PyMuse.py:141-146 | A single message produces at most one notification. |
| Scenarios.DegradedEpisodeNotifiesOnce | PyMuse.py:91-113 | Good float codes pass. Then degraded codes notify once, a second check stays silent, and recovery clears the flag. |
| Scenarios.IntTypedReportPassesGate | PyMuse.py:95-97 | A report whose first code is an integer passes the gate whatever its values, and leaves the flag as it was. |
| Scenarios.SnapshotAppearsWithGamma | PyMuse.py:125-162 | After four bands the snapshot is empty. Gamma completes it and `run` prints it. Theta's stored list equals its arguments, unrounded. |
| Scenarios.DegradedGammaIsDropped | PyMuse.py:141-146 | With degraded codes, a gamma message changes no reading and prints nothing. |
| Scenarios.ShortHorseshoeIsRefused | PyMuse.py:91-92 | A horseshoe message with three codes is refused, and the state is unchanged. |

## Left out

- Server and process plumbing: `create_server`, argparse, the python-osc
  dispatcher and threading UDP server, `setServerInfo`, `start_server`,
  `stop`, `exit_handler` and the `__main__` block. These are network I/O,
  library calls and process exit. The address table is modelled as the
  `Message` enumeration.
- Concurrency: the threaded server may run handlers concurrently; the model
  processes messages one at a time.
- Logging, `print` and `os.system('cls')` in `check_connection`: modelled as
  one `PoorConnection` event.
- The `KeyboardInterrupt` branch of `check_connection` (process exit).
- Session.GetRawBrainwaves: Python's decimal `round(e, 3)` is the
  uninterpreted parameter `round`. Only the length and per-element
  correspondence are stated.
- The `rounded` parameter of `get_brainwaves` (line 148) is unused in the
  source. The precision `rounded` of `get_raw_brainwaves` (line 166) is folded
  into the `round` parameter. The precision `dp` of `round_values` reaches a
  `round` call whose result is discarded, so it has no effect on stored
  values.
- Sample values and codes are assumed numeric, and codes are finite reals or
  integers, not `bool` (no NaN or infinities; a `bool` first code would
  take the comparison branch, since `type(True)` is not `int`). For other OSC argument types, Python raises
  `TypeError`. That happens in `round` (line 88, after the gate has run, so the
  reading is kept and gamma's `run` is skipped) or in the `<` comparison
  (line 101, on every later gate). Neither error is modelled.
- Sample values are an opaque type `V`. `args[1:]` yields a tuple where the
  band handlers store lists. The model does not tell the two apart, because
  only band lists reach `get_brainwaves`.
- Session.RawHandler: takes the OSC values the dispatcher passes after its
  fixed argument. A call to `brainwave_raw_handler` outside the dispatcher,
  with no fixed argument, is not modelled.
- `Printed` carries the snapshot as an unordered map. The key order of the
  printed dict (alpha, theta, delta, beta, gamma, lines 151-156) is not
  modelled.
- Errors raised inside handlers are reported by the server thread, not by
  the session. The model only records that the message was refused.

=== FILE: bands.dfy ===
/**
 * The five absolute-band readings of the headband and the all-or-nothing
 * snapshot `get_brainwaves` builds from them.
 */
module Bands {

  datatype Band = Theta | Delta | Alpha | Beta | Gamma

  /** The five keys of a full snapshot. */
  const AllBands: set<Band> := {Alpha, Theta, Delta, Beta, Gamma}

  /** One stored list per band; `[]` means no accepted message yet. */
  datatype Readings<V> = Readings(theta: seq<V>, delta: seq<V>, alpha: seq<V>, beta: seq<V>, gamma: seq<V>)
  {
    function Get(b: Band): seq<V> {
      match b
      case Theta => theta
      case Delta => delta
      case Alpha => alpha
      case Beta => beta
      case Gamma => gamma
    }

    /** Replaces one band's list wholesale. */
    function Set(b: Band, v: seq<V>): (r: Readings<V>)
      ensures r.Get(b) == v
      ensures forall b' :: b' != b ==> r.Get(b') == Get(b')
    {
      match b
      case Theta => this.(theta := v)
      case Delta => this.(delta := v)
      case Alpha => this.(alpha := v)
      case Beta => this.(beta := v)
      case Gamma => this.(gamma := v)
    }
  }

  /** The readings before any message: five empty lists. */
  function NoReadings<V>(): Readings<V> {
    Readings([], [], [], [], [])
  }

  /** Every band has received at least one accepted message. */
  predicate Full<V>(r: Readings<V>) {
    forall b :: r.Get(b) != []
  }

  /** Every band holds nothing or exactly one value per channel. */
  predicate WellFormed<V>(r: Readings<V>) {
    forall b :: r.Get(b) == [] || |r.Get(b)| == 4
  }

  /** `get_brainwaves`: the mapping of all five band names to their lists, or
      the empty mapping as soon as one of the lists is empty. */
  function GetBrainwaves<V>(r: Readings<V>): (m: map<Band, seq<V>>)
    ensures m == map[] <==> exists b :: r.Get(b) == []
    ensures m != map[] <==> Full(r)
    ensures m != map[] ==> m.Keys == AllBands && forall b :: b in m ==> m[b] == r.Get(b)
  {
    var d := map[Alpha := r.alpha, Theta := r.theta, Delta := r.delta, Beta := r.beta, Gamma := r.gamma];
    TableHoldsEveryBand(r, d);
    if |d[Alpha]| == 0 || |d[Theta]| == 0 || |d[Delta]| == 0 || |d[Beta]| == 0 || |d[Gamma]| == 0 then
      assert d[Alpha] == [] || d[Theta] == [] || d[Delta] == [] || d[Beta] == [] || d[Gamma] == [];
      map[]
    else
      d
  }

  /** The dictionary `get_brainwaves` builds has one entry per band, holding
      that band's list. */
  lemma TableHoldsEveryBand<V>(r: Readings<V>, d: map<Band, seq<V>>)
    requires d == map[Alpha := r.alpha, Theta := r.theta, Delta := r.delta, Beta := r.beta, Gamma := r.gamma]
    ensures d.Keys == AllBands
    ensures forall b :: b in d && d[b] == r.Get(b)
  {
    forall b ensures b in d && d[b] == r.Get(b) {
      match b
      case Theta =>
      case Delta =>
      case Alpha =>
      case Beta =>
      case Gamma =>
    }
  }
}

=== FILE: debounce.dfy ===
/**
 * Notification debouncing, read off the event trace of a session: between
 * two degraded-connection notifications there is always a usable verdict.
 * `Debounced` is a small automaton over the trace, `Separated` the same
 * property stated directly with indices; the two are shown equivalent, and
 * every replay of messages is shown debounced.
 */
module Debounce {
  import opened LinkMonitor
  import opened Bands
  import opened Session

  /** Automaton state after one event: `open` means a notification has been
      emitted and no usable verdict has followed it yet. */
  function Next<V>(e: Event<V>, open: bool): bool {
    match e
    case Verdict(u) => if u then false else open
    case PoorConnection(_) => true
    case Printed(_) => open
  }

  function OpenAfter<V>(t: seq<Event<V>>, open: bool): bool
    decreases |t|
  {
    if t == [] then open else OpenAfter(t[1..], Next(t[0], open))
  }

  /** No notification is emitted while one is open. */
  predicate Debounced<V>(t: seq<Event<V>>, open: bool)
    decreases |t|
  {
    t == [] || (!(t[0].PoorConnection? && open) && Debounced(t[1..], Next(t[0], open)))
  }

  /** Position `k` of the trace is a usable verdict. */
  predicate Reset<V>(t: seq<Event<V>>, k: int)
    requires 0 <= k < |t|
  {
    t[k].Verdict? && t[k].usable
  }

  /** Any two notifications have a usable verdict strictly between them. */
  predicate Separated<V>(t: seq<Event<V>>) {
    forall i, j :: 0 <= i < j < |t| && t[i].PoorConnection? && t[j].PoorConnection? ==>
      exists k :: i < k < j && Reset(t, k)
  }

  /** Every notification has a usable verdict before it. */
  predicate Preceded<V>(t: seq<Event<V>>) {
    forall j :: 0 <= j < |t| && t[j].PoorConnection? ==> exists k :: 0 <= k < j && Reset(t, k)
  }

  /** A trace run from flag `before` to flag `after` is debounced and leaves
      no notification open that the flag does not record. */
  predicate Tracks<V>(t: seq<Event<V>>, before: bool, after: bool) {
    Debounced(t, before) && (OpenAfter(t, before) ==> after)
  }

  lemma {:induction false} AppendDebounced<V>(a: seq<Event<V>>, b: seq<Event<V>>, open: bool)
    ensures Debounced(a + b, open) <==> Debounced(a, open) && Debounced(b, OpenAfter(a, open))
    ensures OpenAfter(a + b, open) == OpenAfter(b, OpenAfter(a, open))
    decreases |a|
  {
    if a == [] {
      assert a + b == b;
    } else {
      assert (a + b)[0] == a[0];
      assert (a + b)[1..] == a[1..] + b;
      AppendDebounced(a[1..], b, Next(a[0], open));
    }
  }

  /** Starting with fewer notifications open only helps. */
  lemma {:induction false} Weaken<V>(t: seq<Event<V>>, lo: bool, hi: bool)
    requires lo ==> hi
    requires Debounced(t, hi)
    ensures Debounced(t, lo)
    ensures OpenAfter(t, lo) ==> OpenAfter(t, hi)
    decreases |t|
  {
    if t != [] {
      Weaken(t[1..], Next(t[0], lo), Next(t[0], hi));
    }
  }

  /** Tracked traces compose. */
  lemma TracksAppend<V>(a: seq<Event<V>>, b: seq<Event<V>>, n0: bool, n1: bool, n2: bool)
    requires Tracks(a, n0, n1) && Tracks(b, n1, n2)
    ensures Tracks(a + b, n0, n2)
  {
    AppendDebounced(a, b, n0);
    Weaken(b, OpenAfter(a, n0), n1);
  }

  /** One gate evaluation is tracked by the `connection_notified` flag. */
  lemma GateTracks<V>(h: Headband<V>)
    ensures Tracks(Gate(h).events, h.link.notified, Gate(h).state.link.notified)
  {
    var c := CheckConnection(h.link);
    var t := Gate(h).events;
    if c.notice.Some? {
      assert t == [PoorConnection(c.notice.value), Verdict(c.usable)];
      assert t[1..] == [t[1]];
      assert t[1..][1..] == [];
    } else {
      assert t == [Verdict(c.usable)];
      assert t[1..] == [];
      assert OpenAfter(t, h.link.notified) == Next(t[0], h.link.notified);
    }
  }

  lemma RunTracks<V>(h: Headband<V>)
    ensures Tracks(Run(h).events, h.link.notified, Run(h).state.link.notified)
  {
    var g := Gate(h);
    GateTracks(h);
    if g.usable {
      var p: seq<Event<V>> := [Printed(GetBrainwaves(g.state.bands))];
      assert p[1..] == [];
      assert Debounced(p, g.state.link.notified);
      assert OpenAfter(p, g.state.link.notified) == g.state.link.notified;
      TracksAppend(g.events, p, h.link.notified, g.state.link.notified, g.state.link.notified);
    }
  }

  /** Every message, the gamma path with its two back-to-back gate
      evaluations included, is tracked by the flag. */
  lemma ApplyTracks<V>(h: Headband<V>, m: Message<V>)
    ensures Tracks(Apply(h, m).events, h.link.notified, Apply(h, m).state.link.notified)
  {
    match m
    case Horseshoe(_) =>
    case Eeg(_) =>
      GateTracks(h);
    case Absolute(b, vs) =>
      if |vs| == 4 {
        var g := Gate(h);
        GateTracks(h);
        if b == Gamma {
          var h1 := if g.usable then g.state.(bands := g.state.bands.Set(b, RoundValues([vs[0], vs[1], vs[2], vs[3]], 5)))
                    else g.state;
          RunTracks(h1);
          TracksAppend(g.events, Run(h1).events, h.link.notified, h1.link.notified, Run(h1).state.link.notified);
        }
      }
  }

  /** Any sequence of messages yields a debounced trace. */
  lemma {:induction false} ReplayTracks<V>(h: Headband<V>, ms: seq<Message<V>>)
    ensures Tracks(Replay(h, ms).events, h.link.notified, Replay(h, ms).state.link.notified)
    decreases |ms|
  {
    if ms != [] {
      var s := Apply(h, ms[0]);
      ApplyTracks(h, ms[0]);
      ReplayTracks(s.state, ms[1..]);
      TracksAppend(s.events, Replay(s.state, ms[1..]).events,
                   h.link.notified, s.state.link.notified, Replay(h, ms).state.link.notified);
    }
  }

  /** The automaton and the index statement agree: a debounced trace separates
      its notifications, and with a notification open, each one waits for a
      usable verdict first. */
  lemma {:induction false} DebouncedSeparates<V>(t: seq<Event<V>>, open: bool)
    requires Debounced(t, open)
    ensures Separated(t)
    ensures open ==> Preceded(t)
    decreases |t|
  {
    if t != [] {
      var rest := t[1..];
      var o := Next(t[0], open);
      DebouncedSeparates(rest, o);
      forall i, j | 0 <= i < j < |t| && t[i].PoorConnection? && t[j].PoorConnection?
        ensures exists k :: i < k < j && Reset(t, k)
      {
        assert rest[j - 1] == t[j];
        if i == 0 {
          var k :| 0 <= k < j - 1 && Reset(rest, k);
          assert Reset(t, k + 1);
        } else {
          assert rest[i - 1] == t[i];
          var k :| i - 1 < k < j - 1 && Reset(rest, k);
          assert Reset(t, k + 1);
        }
      }
      if open {
        forall j | 0 <= j < |t| && t[j].PoorConnection?
          ensures exists k :: 0 <= k < j && Reset(t, k)
        {
          if Reset(t, 0) {
          } else {
            assert rest[j - 1] == t[j];
            var k :| 0 <= k < j - 1 && Reset(rest, k);
            assert Reset(t, k + 1);
          }
        }
      }
    }
  }

  /** Conversely, a trace that separates its notifications (and, with one open,
      makes each wait for a usable verdict) is debounced. */
  lemma {:induction false} SeparatedDebounces<V>(t: seq<Event<V>>, open: bool)
    requires Separated(t)
    requires open ==> Preceded(t)
    ensures Debounced(t, open)
    decreases |t|
  {
    if t != [] {
      var rest := t[1..];
      var o := Next(t[0], open);
      assert !(t[0].PoorConnection? && open) by {
        if t[0].PoorConnection? && open {
          assert false;
        }
      }
      assert Separated(rest) by {
        forall i, j | 0 <= i < j < |rest| && rest[i].PoorConnection? && rest[j].PoorConnection?
          ensures exists k :: i < k < j && Reset(rest, k)
        {
          assert t[i + 1] == rest[i] && t[j + 1] == rest[j];
          var k :| i + 1 < k < j + 1 && Reset(t, k);
          assert Reset(rest, k - 1);
        }
      }
      if o {
        forall j | 0 <= j < |rest| && rest[j].PoorConnection?
          ensures exists k :: 0 <= k < j && Reset(rest, k)
        {
          assert t[j + 1] == rest[j];
          if t[0].PoorConnection? {
            var k :| 0 < k < j + 1 && Reset(t, k);
            assert Reset(rest, k - 1);
          } else {
            var k :| 0 <= k < j + 1 && Reset(t, k);
            assert !Reset(t, 0);
            assert Reset(rest, k - 1);
          }
        }
      }
      SeparatedDebounces(rest, o);
    }
  }

  /** From a fresh session, notifications in the trace of any message sequence
      are separated by usable verdicts: at most one per degraded episode. */
  lemma FreshSessionSeparatesNotices<V>(ms: seq<Message<V>>)
    ensures Separated(Replay(Init<V>(), ms).events)
  {
    ReplayTracks(Init<V>(), ms);
    DebouncedSeparates(Replay(Init<V>(), ms).events, false);
  }

  /** Counts the notifications in a trace. */
  function Notices<V>(t: seq<Event<V>>): nat
    decreases |t|
  {
    if t == [] then 0 else (if t[0].PoorConnection? then 1 else 0) + Notices(t[1..])
  }

  /** A debounced trace with no usable verdict in it notifies at most once,
      and not at all if a notification was already open. */
  lemma {:induction false} NoResetNotifiesAtMostOnce<V>(t: seq<Event<V>>, open: bool)
    requires Debounced(t, open)
    requires forall k :: 0 <= k < |t| ==> !Reset(t, k)
    ensures Notices(t) <= (if open then 0 else 1)
    decreases |t|
  {
    if t != [] {
      forall k | 0 <= k < |t| - 1 ensures !Reset(t[1..], k) {
        assert t[1..][k] == t[k + 1];
        assert !Reset(t, k + 1);
      }
      assert !Reset(t, 0);
      NoResetNotifiesAtMostOnce(t[1..], Next(t[0], open));
    }
  }

  lemma {:induction false} NoticesAppend<V>(a: seq<Event<V>>, b: seq<Event<V>>)
    ensures Notices(a + b) == Notices(a) + Notices(b)
    decreases |a|
  {
    if a == [] {
      assert a + b == b;
    } else {
      assert a + b != [];
      assert (a + b)[0] == a[0];
      assert (a + b)[1..] == a[1..] + b;
      NoticesAppend(a[1..], b);
    }
  }

  /** A gate evaluation notifies exactly when `check_connection` does. */
  lemma GateNotices<V>(h: Headband<V>)
    ensures Notices(Gate(h).events) == if CheckConnection(h.link).notice.Some? then 1 else 0
  {
    var t := Gate(h).events;
    if |t| == 2 {
      assert t[1..] == [t[1]];
      assert t[1..][1..] == [];
      assert Notices(t[1..]) == 0;
    } else {
      assert t[1..] == [];
      assert Notices(t[1..]) == 0;
    }
  }

  /** The gamma handler evaluates the gate twice in a row; only the first
      evaluation can notify, since it leaves the flag set. */
  lemma GammaNotifiesAtMostOnce<V>(h: Headband<V>, tp9: V, fp1: V, fp2: V, tp10: V)
    ensures Notices(BandHandler(h, Gamma, tp9, fp1, fp2, tp10).events) <= 1
  {
    var g := Gate(h);
    GateNotices(h);
    var h1 := if g.usable then g.state.(bands := g.state.bands.Set(Gamma, RoundValues([tp9, fp1, fp2, tp10], 5)))
              else g.state;
    var g2 := Gate(h1);
    GateNotices(h1);
    var r := Run(h1);
    if g2.usable {
      var p: seq<Event<V>> := [Printed(GetBrainwaves(g2.state.bands))];
      assert p[1..] == [];
      NoticesAppend(g2.events, p);
    }
    assert Notices(r.events) == Notices(g2.events);
    NoticesAppend(g.events, r.events);
  }

  /** One message emits at most one notification, even on the gamma path
      where the gate is evaluated twice in a row. */
  lemma ApplyNotifiesAtMostOnce<V>(h: Headband<V>, m: Message<V>)
    ensures Notices(Apply(h, m).events) <= 1
  {
    match m
    case Horseshoe(_) =>
    case Eeg(_) =>
      GateNotices(h);
    case Absolute(b, vs) =>
      if |vs| == 4 {
        if b == Gamma {
          GammaNotifiesAtMostOnce(h, vs[0], vs[1], vs[2], vs[3]);
        } else {
          GateNotices(h);
        }
      }
  }

  /** Gamma's notices are exactly those of its first gate check: the second
      check runs on the link the first one left, so it never notifies. */
  lemma GammaNotifiesExactly<V>(h: Headband<V>, tp9: V, fp1: V, fp2: V, tp10: V)
    ensures Notices(BandHandler(h, Gamma, tp9, fp1, fp2, tp10).events) ==
      if CheckConnection(h.link).notice.Some? then 1 else 0
  {
    var g := Gate(h);
    GateNotices(h);
    var h1 := if g.usable then g.state.(bands := g.state.bands.Set(Gamma, RoundValues([tp9, fp1, fp2, tp10], 5)))
              else g.state;
    var g2 := Gate(h1);
    GateNotices(h1);
    assert CheckConnection(h1.link).notice.None?;
    var r := Run(h1);
    if g2.usable {
      var p: seq<Event<V>> := [Printed(GetBrainwaves(g2.state.bands))];
      assert p[1..] == [];
      NoticesAppend(g2.events, p);
    }
    assert Notices(r.events) == Notices(g2.events);
    NoticesAppend(g.events, r.events);
  }

  /** Conversely, every data message notifies exactly when its first gate
      evaluation does: a degraded check with the flag clear always reaches the
      trace, and gamma's second check never adds a notice. Horseshoe messages
      and refused messages notify nothing. */
  lemma ApplyNotifiesExactly<V>(h: Headband<V>, m: Message<V>)
    ensures Notices(Apply(h, m).events) ==
      if (m.Eeg? || (m.Absolute? && |m.values| == 4)) && CheckConnection(h.link).notice.Some? then 1 else 0
  {
    match m
    case Horseshoe(_) =>
    case Eeg(_) =>
      GateNotices(h);
    case Absolute(b, vs) =>
      if |vs| == 4 {
        GateNotices(h);
        if b == Gamma {
          GammaNotifiesExactly(h, vs[0], vs[1], vs[2], vs[3]);
        }
      }
  }
}

=== FILE: link_monitor.dfy ===
/**
 * The link gate of the headband session: the four horseshoe quality codes,
 * the one-shot "already notified" flag, and `check_connection`, which turns
 * them into a usable/degraded verdict.
 */
module LinkMonitor {
  import opened Wrappers

  /** A horseshoe quality code as the transport decoded it. The gate tells a
      never-updated status from a real one by the runtime type of the first
      code, so the numeric type is part of the value. */
  datatype Code = IntCode(n: int) | FloatCode(x: real)

  /** A channel counts as connected when its code is below 3
      (0..4 scale, lower is better). Integers and reals compare exactly. */
  predicate Good(c: Code) {
    match c
    case IntCode(n) => n < 3
    case FloatCode(x) => x < 3.0
  }

  /** The four codes in channel order: TP9, Fp1, Fp2, TP10. */
  datatype Status = Status(tp9: Code, fp1: Code, fp2: Code, tp10: Code) {
    function Codes(): seq<Code> {
      [tp9, fp1, fp2, tp10]
    }
  }

  /** The initial status `[4, 4, 4, 4]`, all int-typed. */
  const Sentinel: Status := Status(IntCode(4), IntCode(4), IntCode(4), IntCode(4))

  /** The gate's state: the stored codes and the `connection_notified` flag. */
  datatype Link = Link(status: Status, notified: bool)

  const InitialLink: Link := Link(Sentinel, false)

  /** The gate treats a status whose first code is int-typed as never updated. */
  predicate LooksNeverUpdated(s: Status) {
    s.tp9.IntCode?
  }

  /** Every one of the four codes is below 3. */
  predicate AllGood(s: Status) {
    forall i :: 0 <= i < 4 ==> Good(s.Codes()[i])
  }

  /** One evaluation of the gate: the link afterwards, the verdict, and the
      codes shown to the user when a degraded-connection notification fired. */
  datatype Check = Check(link: Link, usable: bool, notice: Option<Status>)

  /** `check_connection`: optimistic while the status looks never updated;
      otherwise usable iff every code is below 3. A usable verdict clears the
      flag; a degraded one notifies only if the flag was clear, then sets it. */
  function CheckConnection(l: Link): (r: Check)
    ensures r.link.status == l.status
    ensures LooksNeverUpdated(l.status) ==> r.usable && r.link == l && r.notice == None
    ensures !LooksNeverUpdated(l.status) ==> (r.usable <==> AllGood(l.status))
    ensures r.usable ==> r.notice == None
    ensures r.usable && !LooksNeverUpdated(l.status) ==> !r.link.notified
    ensures !r.usable ==> r.link.notified
    ensures !r.usable ==> (r.notice.Some? <==> !l.notified)
    ensures r.notice.Some? ==> r.notice.value == l.status
  {
    var s := l.status;
    assert AllGood(s) <==> Good(s.tp9) && Good(s.fp1) && Good(s.fp2) && Good(s.tp10) by {
      assert s.Codes()[0] == s.tp9 && s.Codes()[1] == s.fp1;
      assert s.Codes()[2] == s.fp2 && s.Codes()[3] == s.tp10;
    }
    if s.tp9.IntCode? then
      Check(l, true, None)
    else if Good(s.tp9) && Good(s.fp1) && Good(s.fp2) && Good(s.tp10) then
      Check(l.(notified := false), true, None)
    else if !l.notified then
      Check(l.(notified := true), false, Some(s))
    else
      Check(l, false, None)
  }

  /** The link half of `connection_handler`: the status becomes the four
      arguments in order, whatever their values; the flag is left alone. */
  function Update(l: Link, tp9: Code, fp1: Code, fp2: Code, tp10: Code): (r: Link)
    ensures r.status.Codes() == [tp9, fp1, fp2, tp10]
    ensures r.notified == l.notified
  {
    l.(status := Status(tp9, fp1, fp2, tp10))
  }

  /** Repeated gate evaluations with no status update in between: the checks
      a burst of gated messages performs during an outage. Returns the final
      link and how many notifications fired. */
  function CheckRepeatedly(l: Link, n: nat): (r: (Link, nat))
    decreases n
  {
    if n == 0 then (l, 0)
    else
      var c := CheckConnection(l);
      var rest := CheckRepeatedly(c.link, n - 1);
      (rest.0, rest.1 + (if c.notice.Some? then 1 else 0))
  }

  /** Debounce: while the codes stay degraded, any number of checks notify at
      most once, and exactly once when the flag started clear. */
  lemma {:induction false} DegradedChecksNotifyAtMostOnce(l: Link, n: nat)
    requires !LooksNeverUpdated(l.status) && !AllGood(l.status)
    ensures CheckRepeatedly(l, n).1 <= 1
    ensures n > 0 ==> CheckRepeatedly(l, n).0.notified
    ensures n > 0 ==> (CheckRepeatedly(l, n).1 == 1 <==> !l.notified)
    decreases n
  {
    if n > 0 {
      var c := CheckConnection(l);
      DegradedChecksNotifyAtMostOnce(c.link, n - 1);
      if n - 1 > 0 {
        assert c.link.notified;
      }
    }
  }
}

=== FILE: scenarios.dfy ===
/**
 * Concrete message sequences, with real-valued samples, showing the gate,
 * the debounce and the snapshot on small runs.
 */
module Scenarios {
  import opened Wrappers
  import opened LinkMonitor
  import opened Bands
  import opened Session

  function Floats(x: real): seq<Code> {
    [FloatCode(x), FloatCode(x), FloatCode(x), FloatCode(x)]
  }

  /** Good codes pass the gate; the first degraded check notifies, the second
      stays silent; recovery clears the flag. */
  lemma DegradedEpisodeNotifiesOnce()
    ensures var h1 := Apply(Init<real>(), Horseshoe(Floats(1.0))).state;
      && Accepts(h1)
      && var h2 := Apply(h1, Horseshoe(Floats(4.0))).state;
      && var c1 := CheckConnection(h2.link);
      && !c1.usable && c1.notice == Some(Status(FloatCode(4.0), FloatCode(4.0), FloatCode(4.0), FloatCode(4.0)))
      && var c2 := CheckConnection(c1.link);
      && !c2.usable && c2.notice == None
      && var h3 := Apply(h2.(link := c2.link), Horseshoe(Floats(1.0))).state;
      && var c3 := CheckConnection(h3.link);
      && c3.usable && !c3.link.notified
  {
  }

  /** The sentinel test looks only at the numeric type of the first code: a
      report whose first code is an integer passes the gate whatever the codes
      say, so an integer-typed `[4, 4, 4, 4]` report counts as usable. */
  lemma IntTypedReportPassesGate<V>(h: Headband<V>, tp9: int, fp1: Code, fp2: Code, tp10: Code)
    ensures Accepts(ConnectionHandler(h, IntCode(tp9), fp1, fp2, tp10).state)
    ensures !CheckConnection(ConnectionHandler(h, IntCode(tp9), fp1, fp2, tp10).state.link).link.notified
      <==> !h.link.notified
  {
  }

  function Sample(): seq<real> {
    [0.123456, 1.0, 2.0, 3.0]
  }

  /** Four bands alone leave the snapshot empty; gamma completes it, `run`
      prints it, and the stored lists are the arguments exactly as sent. */
  lemma SnapshotAppearsWithGamma()
    ensures var h1 := Apply(Init<real>(), Absolute(Theta, Sample())).state;
      var h2 := Apply(h1, Absolute(Delta, Sample())).state;
      var h3 := Apply(h2, Absolute(Alpha, Sample())).state;
      var h4 := Apply(h3, Absolute(Beta, Sample())).state;
      var s := Apply(h4, Absolute(Gamma, [4.0, 5.0, 6.0, 7.0]));
      && GetBrainwaves(h4.bands) == map[]
      && GetBrainwaves(s.state.bands) != map[]
      && s.state.bands.Get(Theta) == Sample()
      && s.events[|s.events| - 1].Printed?
      && s.events[|s.events| - 1].snapshot == GetBrainwaves(s.state.bands)
  {
    // Each step keeps the sentinel link, so every band message is accepted.
    assert Accepts(Init<real>());
    var h1 := Apply(Init<real>(), Absolute(Theta, Sample())).state;
    assert h1.link == InitialLink;
    var h2 := Apply(h1, Absolute(Delta, Sample())).state;
    assert h2.link == InitialLink;
    var h3 := Apply(h2, Absolute(Alpha, Sample())).state;
    assert h3.link == InitialLink;
    var h4 := Apply(h3, Absolute(Beta, Sample())).state;
    assert h4.link == InitialLink;
    assert h4.bands.Get(Gamma) == [];
    var s := Apply(h4, Absolute(Gamma, [4.0, 5.0, 6.0, 7.0]));
    assert Full(s.state.bands) by {
      forall b ensures s.state.bands.Get(b) != [] {
        match b
        case Theta =>
        case Delta =>
        case Alpha =>
        case Beta =>
        case Gamma =>
      }
    }
  }

  /** With the link degraded, a gamma message leaves the gamma list as it was
      and `run` prints nothing. */
  lemma DegradedGammaIsDropped(h: Headband<real>)
    requires !LooksNeverUpdated(h.link.status) && !AllGood(h.link.status)
    ensures var s := Apply(h, Absolute(Gamma, [1.0, 2.0, 3.0, 4.0]));
      && s.state.bands == h.bands
      && forall i :: 0 <= i < |s.events| ==> !s.events[i].Printed?
  {
  }

  /** A horseshoe message with three codes is refused before its handler runs. */
  lemma ShortHorseshoeIsRefused<V>(h: Headband<V>)
    ensures Dispatch(h, Horseshoe([FloatCode(1.0), FloatCode(1.0), FloatCode(1.0)])) == Failure(ArityMismatch(4, 3))
    ensures Apply(h, Horseshoe([FloatCode(1.0), FloatCode(1.0), FloatCode(1.0)])) == Step(h, [])
  {
  }
}

=== FILE: session.dfy ===
/**
 * The `Headband` session: one immutable state record holding the link gate,
 * the five band readings and the raw EEG burst, and one pure transition per
 * message handler. Each transition returns the new state and the events it
 * emitted, in order.
 */
module Session {
  import opened Wrappers
  import opened LinkMonitor
  import opened Bands

  /** The session's message-handling state. `V` is the opaque type of a band or
      raw sample value. */
  datatype Headband<V> = Headband(link: Link, bands: Readings<V>, raw: seq<V>)

  /** The state right after construction: sentinel codes, flag clear, every
      list empty. */
  function Init<V>(): (r: Headband<V>)
    ensures LooksNeverUpdated(r.link.status) && Accepts(r) && !r.link.notified
    ensures forall b :: r.bands.Get(b) == []
    ensures GetBrainwaves(r.bands) == map[]
    ensures r.raw == []
  {
    Headband(InitialLink, NoReadings(), [])
  }

  /** What a transition emits. `PoorConnection` is the degraded-link
      notification (log line, screen clear and message, as one event);
      `Printed` is the snapshot `run` prints; `Verdict` records each gate
      evaluation so that properties about the gate can be read off the trace. */
  datatype Event<V> =
    | Verdict(usable: bool)
    | PoorConnection(codes: Status)
    | Printed(snapshot: map<Band, seq<V>>)

  datatype Step<V> = Step(state: Headband<V>, events: seq<Event<V>>)

  /** The gate result lifted to the session. */
  datatype Gated<V> = Gated(state: Headband<V>, usable: bool, events: seq<Event<V>>)

  /** The gate would currently let a data message through. */
  predicate Accepts<V>(h: Headband<V>) {
    CheckConnection(h.link).usable
  }

  function NoticeEvents<V>(n: Option<Status>): seq<Event<V>> {
    match n
    case None => []
    case Some(s) => [PoorConnection(s)]
  }

  /** Runs `check_connection` on the session: only the link part of the state
      can change. */
  function Gate<V>(h: Headband<V>): Gated<V> {
    var c := CheckConnection(h.link);
    Gated(h.(link := c.link), c.usable, NoticeEvents(c.notice) + [Verdict(c.usable)])
  }

  /** `round_values`: the loop only rebinds its loop variable to the rounded
      value, so the list comes back exactly as given. */
  function RoundValues<V>(ls: seq<V>, dp: int): seq<V> {
    ls
  }

  /** `connection_handler`: overwrites the four codes, touches nothing else and
      emits nothing. */
  function ConnectionHandler<V>(h: Headband<V>, tp9: Code, fp1: Code, fp2: Code, tp10: Code): (r: Step<V>)
    ensures r.state.link.status.Codes() == [tp9, fp1, fp2, tp10]
    ensures r.state.link.notified == h.link.notified
    ensures r.state.bands == h.bands && r.state.raw == h.raw
    ensures r.events == []
  {
    Step(h.(link := Update(h.link, tp9, fp1, fp2, tp10)), [])
  }

  /** `run`: prints the snapshot when the gate passes. The gate evaluation
      itself may move the notification flag; the readings stay as they are. */
  function Run<V>(h: Headband<V>): (r: Step<V>)
    ensures r.state.bands == h.bands && r.state.raw == h.raw
    ensures r.state.link == CheckConnection(h.link).link
    ensures |r.events| > 0
    ensures Accepts(h) <==> r.events[|r.events| - 1].Printed?
    ensures Accepts(h) ==> r.events[|r.events| - 1].snapshot == GetBrainwaves(h.bands)
  {
    var g := Gate(h);
    if g.usable then Step(g.state, g.events + [Printed(GetBrainwaves(g.state.bands))])
    else Step(g.state, g.events)
  }

  /** The five `*_abs_handler`s, parametrised by band. The gate decides whether
      the band's list becomes the four arguments in order; the other bands and
      the raw burst never change. The gamma handler then calls `run`, whether
      or not its own reading was accepted. */
  function BandHandler<V>(h: Headband<V>, band: Band, tp9: V, fp1: V, fp2: V, tp10: V): (r: Step<V>)
    ensures r.state.raw == h.raw
    ensures r.state.link.status == h.link.status
    ensures forall b :: b != band ==> r.state.bands.Get(b) == h.bands.Get(b)
    ensures Accepts(h) ==> r.state.bands.Get(band) == [tp9, fp1, fp2, tp10]
    ensures !Accepts(h) ==> r.state.bands == h.bands
    ensures band != Gamma ==> r.state.link == CheckConnection(h.link).link
    ensures band != Gamma ==> forall i :: 0 <= i < |r.events| ==> !r.events[i].Printed?
    ensures |r.events| > 0
    ensures band == Gamma ==> r.state.link == CheckConnection(CheckConnection(h.link).link).link
    ensures band == Gamma ==>
      (Accepts(h.(link := CheckConnection(h.link).link)) <==> r.events[|r.events| - 1].Printed?)
    ensures band == Gamma && r.events[|r.events| - 1].Printed? ==>
      r.events[|r.events| - 1].snapshot == GetBrainwaves(r.state.bands)
  {
    var g := Gate(h);
    var h1 := if g.usable then g.state.(bands := g.state.bands.Set(band, RoundValues([tp9, fp1, fp2, tp10], 5)))
              else g.state;
    if band == Gamma then
      var s := Run(h1);
      Step(s.state, g.events + s.events)
    else
      Step(h1, g.events)
  }

  /** `brainwave_raw_handler`: the dispatcher calls it with its fixed argument
      list `["eeg"]` first and the OSC values after it, so `args[1:]` is
      exactly `values`. When the gate passes, the raw burst becomes those
      values; otherwise it is kept. The bands never change. */
  function RawHandler<V>(h: Headband<V>, values: seq<V>): (r: Step<V>)
    ensures r.state.bands == h.bands
    ensures r.state.link == CheckConnection(h.link).link
    ensures Accepts(h) ==> r.state.raw == values
    ensures !Accepts(h) ==> r.state.raw == h.raw
    ensures forall i :: 0 <= i < |r.events| ==> !r.events[i].Printed?
  {
    var g := Gate(h);
    if g.usable then Step(g.state.(raw := RoundValues(values, 5)), g.events)
    else Step(g.state, g.events)
  }

  /** `get_raw_brainwaves`: the raw burst with `round` applied to each value;
      `round` stands for Python's decimal rounding, left uninterpreted. */
  method GetRawBrainwaves<V>(h: Headband<V>, round: V -> V) returns (out: seq<V>)
    ensures |out| == |h.raw|
    ensures forall i :: 0 <= i < |out| ==> out[i] == round(h.raw[i])
  {
    out := [];
    var k := 0;
    while k < |h.raw|
      invariant 0 <= k <= |h.raw|
      invariant |out| == k
      invariant forall i :: 0 <= i < k ==> out[i] == round(h.raw[i])
    {
      out := out + [round(h.raw[k])];
      k := k + 1;
    }
  }

  /** One inbound OSC message, by address. `Horseshoe` and `Absolute` carry the
      OSC arguments; `Eeg` carries the OSC values of one raw burst, in any
      number. */
  datatype Message<V> =
    | Horseshoe(codes: seq<Code>)
    | Eeg(samples: seq<V>)
    | Absolute(band: Band, values: seq<V>)

  /** A handler called with the wrong number of arguments fails before its
      body runs. */
  datatype Fault = ArityMismatch(expected: nat, given: nat)

  /** The address table: routes a message to its handler. The horseshoe and
      band handlers take exactly four values; any other count is refused and
      leaves the session as it was. */
  function Dispatch<V>(h: Headband<V>, m: Message<V>): (r: Result<Step<V>, Fault>)
    ensures r.Failure? <==> (m.Horseshoe? && |m.codes| != 4) || (m.Absolute? && |m.values| != 4)
    ensures r.Failure? && m.Horseshoe? ==> r.error == ArityMismatch(4, |m.codes|)
    ensures r.Failure? && m.Absolute? ==> r.error == ArityMismatch(4, |m.values|)
    ensures r.Success? && m.Horseshoe? ==>
      r.value.state.link.status.Codes() == m.codes && r.value.state.bands == h.bands
    ensures r.Success? && m.Absolute? && Accepts(h) ==> r.value.state.bands.Get(m.band) == m.values
    ensures r.Success? && !m.Horseshoe? && !Accepts(h) ==> r.value.state.bands == h.bands
    ensures r.Success? && !m.Eeg? ==> r.value.state.raw == h.raw
    ensures r.Success? && m.Eeg? ==> r.value.state.bands == h.bands
    ensures r.Success? && m.Eeg? && Accepts(h) ==> r.value.state.raw == m.samples
    ensures r.Success? && m.Eeg? && !Accepts(h) ==> r.value.state.raw == h.raw
    ensures r.Success? && m.Absolute? ==> forall b :: b != m.band ==> r.value.state.bands.Get(b) == h.bands.Get(b)
    ensures r.Success? && m.Horseshoe? ==> r.value.state.link.notified == h.link.notified
    ensures r.Success? && m.Horseshoe? ==> r.value.events == []
    ensures r.Success? && !m.Horseshoe? ==> r.value.state.link.status == h.link.status
    ensures r.Success? && (m.Eeg? || (m.Absolute? && m.band != Gamma)) ==>
      r.value.state.link == CheckConnection(h.link).link
    ensures r.Success? && m.Absolute? && m.band == Gamma ==>
      r.value.state.link == CheckConnection(CheckConnection(h.link).link).link
    ensures r.Success? && !m.Horseshoe? ==> |r.value.events| > 0
    ensures r.Success? && m.Absolute? && m.band == Gamma ==>
      (Accepts(h) <==> r.value.events[|r.value.events| - 1].Printed?)
  {
    match m
    case Horseshoe(cs) =>
      if |cs| != 4 then Failure(ArityMismatch(4, |cs|))
      else Success(ConnectionHandler(h, cs[0], cs[1], cs[2], cs[3]))
    case Eeg(samples) =>
      Success(RawHandler(h, samples))
    case Absolute(b, vs) =>
      if |vs| != 4 then Failure(ArityMismatch(4, |vs|))
      else Success(BandHandler(h, b, vs[0], vs[1], vs[2], vs[3]))
  }

  /** The step a message causes: a refused message changes nothing and emits
      nothing. */
  function Apply<V>(h: Headband<V>, m: Message<V>): Step<V> {
    match Dispatch(h, m)
    case Success(s) => s
    case Failure(_) => Step(h, [])
  }

  /** Processes messages in arrival order, concatenating their events. */
  function Replay<V>(h: Headband<V>, ms: seq<Message<V>>): Step<V>
    decreases |ms|
  {
    if ms == [] then Step(h, [])
    else
      var s := Apply(h, ms[0]);
      var rest := Replay(s.state, ms[1..]);
      Step(rest.state, s.events + rest.events)
  }

  /** A single message stores only four-value lists, so it never empties a
      band and never stores a list of another length. */
  lemma ApplyKeepsShape<V>(h: Headband<V>, m: Message<V>)
    ensures forall b :: h.bands.Get(b) != [] ==> Apply(h, m).state.bands.Get(b) != []
    ensures Full(h.bands) ==> Full(Apply(h, m).state.bands)
    ensures WellFormed(h.bands) ==> WellFormed(Apply(h, m).state.bands)
  {
  }

  /** Once every band holds data, it keeps holding data; every stored band list
      has one value per channel. */
  lemma {:induction false} ReplayKeepsShape<V>(h: Headband<V>, ms: seq<Message<V>>)
    ensures Full(h.bands) ==> Full(Replay(h, ms).state.bands)
    ensures WellFormed(h.bands) ==> WellFormed(Replay(h, ms).state.bands)
    decreases |ms|
  {
    if ms != [] {
      ApplyKeepsShape(h, ms[0]);
      ReplayKeepsShape(Apply(h, ms[0]).state, ms[1..]);
    }
  }

  /** Monotonicity of the snapshot: once `get_brainwaves` returns the full
      mapping, it never returns the empty mapping again. */
  lemma SnapshotStaysFull<V>(h: Headband<V>, ms: seq<Message<V>>)
    requires GetBrainwaves(h.bands) != map[]
    ensures GetBrainwaves(Replay(h, ms).state.bands) != map[]
    ensures GetBrainwaves(Replay(h, ms).state.bands).Keys == AllBands
  {
    ReplayKeepsShape(h, ms);
  }

  /** The status a message sequence leaves behind, read backwards: the codes of
      the last well-formed horseshoe message, or the initial ones if none. */
  function LastReported<V>(initial: Status, ms: seq<Message<V>>): Status
    decreases |ms|
  {
    if ms == [] then initial
    else
      var m := ms[|ms| - 1];
      if m.Horseshoe? && |m.codes| == 4 then Status(m.codes[0], m.codes[1], m.codes[2], m.codes[3])
      else LastReported(initial, ms[..|ms| - 1])
  }

  /** Reading backwards composes: the status after `a + b` is the status `b`
      leaves behind when started from the status after `a`. */
  lemma {:induction false} LastReportedAppend<V>(initial: Status, a: seq<Message<V>>, b: seq<Message<V>>)
    ensures LastReported(initial, a + b) == LastReported(LastReported(initial, a), b)
    decreases |b|
  {
    if b == [] {
      assert a + b == a;
    } else {
      assert (a + b)[|a + b| - 1] == b[|b| - 1];
      assert (a + b)[..|a + b| - 1] == a + b[..|b| - 1];
      LastReportedAppend(initial, a, b[..|b| - 1]);
    }
  }

  /** Only `connection_handler` writes the codes: after any messages, the
      stored status is the last one reported. */
  lemma {:induction false} ReplayStatusIsLastReported<V>(h: Headband<V>, ms: seq<Message<V>>)
    ensures Replay(h, ms).state.link.status == LastReported(h.link.status, ms)
    decreases |ms|
  {
    if ms != [] {
      var m := ms[0];
      var s := Apply(h, m);
      ReplayStatusIsLastReported(s.state, ms[1..]);
      assert s.state.link.status == LastReported(h.link.status, [m]) by {
        assert [m][..0] == [];
        if m.Horseshoe? && |m.codes| == 4 {
          assert s.state.link.status.Codes() == m.codes;
        }
      }
      assert ms == [m] + ms[1..];
      LastReportedAppend(h.link.status, [m], ms[1..]);
    }
  }

  /** The gate verdict after any message sequence: usable while the stored
      first code is still int-typed (as with no report at all), otherwise
      usable exactly when the last reported codes are all below 3. */
  lemma ReplayVerdict<V>(h: Headband<V>, ms: seq<Message<V>>)
    ensures var s := LastReported(h.link.status, ms);
      LooksNeverUpdated(s) ==> Accepts(Replay(h, ms).state)
    ensures var s := LastReported(h.link.status, ms);
      !LooksNeverUpdated(s) ==> (Accepts(Replay(h, ms).state) <==> AllGood(s))
  {
    ReplayStatusIsLastReported(h, ms);
  }
}

=== FILE: wrappers.dfy ===
/** Option and Result datatypes used across the model. */
module Wrappers {

  /** An optional value: `None` when absent. */
  datatype Option<+T> = None | Some(value: T)

  /** Either a value or the reason the operation did not happen. */
  datatype Result<+T, +E> = Success(value: T) | Failure(error: E)
}
